=== FILE: README.md ===
# TongueBalance core, modelled in Dafny

TongueBalance is a browser app. It sends a photo of the user's tongue and their symptom text to a hosted AI model. It then shows the structured Traditional Chinese Medicine wellness report that comes back. This project models the app's sequential logic and proves properties of it:

- **Local account store** (`services/authService.ts`). Module `AuthService`. Local storage holds a database slot, which is absent, unreadable, or a map from username to account. It also holds an optional session username. `signup`, `login`, `logout`, `getCurrentUser` and `updateHistory` are pure functions from the store to the new store and the returned value.
- **Controller transitions** (`App.tsx`). Module `App`. The component's state hooks become one immutable `AppState` record. The record includes the account store, which stands for local storage. Each event handler becomes a function from state to state: language toggle, speech-transcript append, save to history, login merge, logout, analyze, "analyze another", and the small navigation handlers.
- **Feature flags** (`config/featureFlags.ts`). Module `FeatureFlags`. The flag object is a tree, `Leaf(bool) | Node(map)`. Environment selection picks one of three tables. `isFeatureEnabled` is a split of the dotted path followed by a recursive walk.
- **Result fallbacks** (`components/AnalysisResult.tsx`). Module `AnalysisResult`. This is the defensive defaulting of a possibly incomplete AI report, and the placeholders shown while rendering. The translation entries are a `Labels` parameter.

The record shapes of `types.ts` are in module `Types`. The JavaScript `split` and `join` are in module `Strings`.

Three behaviours of the code are easy to miss:

- `getCurrentUser` treats an empty session string as no session, because `!username` is true for `""`. The sign-in form marks both fields as required, so the empty username is reachable only by calling the service directly. Such an account is then not restored on reload. See `AuthService.EmptyUsernameSessionNotRestored`.
- History ids are not kept unique by `saveToHistory`, because ids come from the clock. Only the login merge checks for an existing id. The model proves uniqueness only for that merge.
- `handleLoginSuccess` keeps the account's login-time history in the `user` record. The prepended pending analysis goes only into `history` and the store. The invariant `App.InSync` is therefore stated over `history`, not over `user.history`.

## Model

| member | source | states |
|---|---|---|
| `Strings.Split` | config/featureFlags.ts:85 | Splitting a path never yields an empty list, and no part contains the separator. |
| `Strings.JoinSplit` | config/featureFlags.ts:85 | Joining the parts of a split with the separator gives back the original path. |
| `Strings.SplitJoin` | config/featureFlags.ts:85 | Splitting a join of one or more separator-free parts gives back those parts. |
| `Strings.Join` | components/AnalysisResult.tsx:91-95 | Joining nothing gives the empty string, and a non-empty list's text starts with its first item. |
| `Strings.JoinEmptyIff` | components/AnalysisResult.tsx:91-95 | A list joined with ", " is empty exactly when the list is empty or holds one empty item. |
| `AuthService.GetDb` | services/authService.ts:12-18 | A missing or unparsable database reads as the empty map; a stored map reads as itself. |
| `AuthService.Signup` | services/authService.ts:25-44 | A taken username gives "Username already exists" and changes nothing. A fresh one adds exactly that key with the given password and an empty history, keeps every other account, sets the session, and returns only username and history. |
| `AuthService.Login` | services/authService.ts:46-57 | An unknown username or a wrong password gives "Invalid username or password" and changes nothing. Otherwise only the session changes, and the stored history is returned without the password. |
| `AuthService.Logout` | services/authService.ts:59-61 | Clears the session and keeps the database. |
| `AuthService.GetCurrentUser` | services/authService.ts:63-73 | Returns a user exactly when the session is present, non-empty and names a stored account, and then returns that account without its password. |
| `AuthService.UpdateHistory` | services/authService.ts:75-81 | An unknown username is a no-op. A known one has only its history replaced; its password, every other account and the session stay. |
| `AuthService.OperationsPreserveWellFormed` | services/authService.ts:31-39 | Signup, login, logout and history updates keep every account filed under its own username. |
| `AuthService.LoginReturnsRequestedAccount` | services/authService.ts:48-56 | On a well-formed store, a successful login returns the requested username with its stored history. |
| `AuthService.LogoutClearsCurrentUser` | services/authService.ts:59-73 | After logout, `getCurrentUser` returns nothing. |
| `AuthService.SignupThenCurrentUser` | services/authService.ts:31-43 | After signing up a fresh, non-empty username, that user with an empty history is current. |
| `AuthService.EmptyUsernameSessionNotRestored` | services/authService.ts:65 | Signing up the empty username, possible only by calling the service directly, succeeds, but its session is not restored. |
| `AuthService.SignupLogoutLogin` | services/authService.ts:25-57 | Signup, then logout, then login with the same password returns the new empty account and restores the signup store. |
| `AuthService.UpdateThenReload` | services/authService.ts:63-81 | Persisting a history for the session's account and reading the current user back yields that history. |
| `AuthService.UpdateHistoryIdempotent` | services/authService.ts:75-81 | Writing the same history twice equals writing it once. |
| `FeatureFlags.FeatureEnv` | config/featureFlags.ts:21-22 | An unset or empty `VITE_FEATURE_ENV` falls back to `NODE_ENV`, and an unset or empty `NODE_ENV` falls back to "development". |
| `FeatureFlags.GetFeatureFlags` | config/featureFlags.ts:27-76 | "staging" and "production" select their tables and anything else selects development. Every table has the groups `auth` and `recommendations` with every flag off. |
| `FeatureFlags.Walk` | config/featureFlags.ts:86-95 | The empty path stays at the root; a walk that gets anywhere along a non-empty path started at an object holding the first key. |
| `FeatureFlags.EnabledAt` | config/featureFlags.ts:86-97 | A path is enabled only if its walk succeeds. In a tree with every flag off, it is enabled exactly when the walk stops at an object. |
| `FeatureFlags.IsFeatureEnabled` | config/featureFlags.ts:84-98 | Against any environment's table, a feature path is enabled exactly when its walk stops at an object. |
| `FeatureFlags.WalkAppend` | config/featureFlags.ts:88-95 | Walking a concatenated path means walking the first part, then the second part from where the first ended. |
| `FeatureFlags.MissingKeyDisabled` | config/featureFlags.ts:89-93 | A segment missing from the object reached so far disables the path, whatever follows. |
| `FeatureFlags.PastLeafDisabled` | config/featureFlags.ts:89-93 | A path that continues below a boolean leaf is disabled, even when the leaf is true. |
| `FeatureFlags.InteriorEnabled` | config/featureFlags.ts:97 | A path that stops at an object is enabled. |
| `FeatureFlags.AllOffLeafDisabled` | config/featureFlags.ts:84-97 | In a tree whose leaves are all off, a path that ends at a leaf ends at a false one. |
| `FeatureFlags.TableInteriorPaths` | config/featureFlags.ts:27-61 | In the shipped tables, the only non-empty paths that end at an object are `auth` and `recommendations`. |
| `FeatureFlags.EnabledExactlyForGroups` | config/featureFlags.ts:27-97 | In every environment, `isFeatureEnabled(p)` holds if and only if `p` is "auth" or "recommendations". |
| `AnalysisResult.Resolve` | components/AnalysisResult.tsx:16-28 | A missing tongue body or coating becomes three "unknown" fields. Missing recommendations become empty diet lists, an empty lifestyle list and a "general rest" exercise. A missing diet becomes empty lists. A missing course becomes "general wellness" name and description with difficulty Beginner. Any present object passes through unchanged. |
| `AnalysisResult.TextOr` | components/AnalysisResult.tsx:39-42 | An absent or empty pattern or explanation shows its fallback; otherwise the text itself is shown. |
| `AnalysisResult.ListText` | components/AnalysisResult.tsx:91-95 | An absent diet list shows the fallback. Any other text shown is the list joined by ", ", and the line is blank only when the fallback is. |
| `AnalysisResult.ListItems` | components/AnalysisResult.tsx:104 | An absent lifestyle list shows the single fallback item and a present one shows its own items. No item shows exactly when a present, empty list was given. |
| `AnalysisResult.Render` | components/AnalysisResult.tsx:39-126 | The title and explanation are the report's unless missing or empty, when the translated placeholder or the fixed English text shows. Each observation shows its own three tags, or three "unknown" tags when it is missing, independently of the other. A present course shows its own name, description and difficulty; a missing one shows "general wellness" at Beginner. Present recommendations show their diet lists through the "none specified" fallback (a missing diet counting as empty lists), their lifestyle list through the "general rest" fallback, and their own exercise. Missing recommendations show the "none specified" diet lines, no lifestyle item and the "general rest" exercise. |
| `AnalysisResult.ListTextFallback` | components/AnalysisResult.tsx:91-95 | A diet line shows the "none specified" placeholder when the list is absent, empty or one empty item. Otherwise it shows the items joined by ", ", which is never empty. |
| `AnalysisResult.ResolveIdempotent` | components/AnalysisResult.tsx:16-28 | Applying the defaults to an already defaulted report changes neither the values nor the rendering. |
| `AnalysisResult.CompleteReportShownVerbatim` | components/AnalysisResult.tsx:16-126 | When every object is present, the observations, course and exercise shown are the report's own, and each diet line is the report's own list joined by ", " or its fallback. |
| `AnalysisResult.EmptyReportShowsPlaceholders` | components/AnalysisResult.tsx:16-104 | A report with nothing in it renders only placeholders, with no lifestyle item. |
| `AnalysisResult.HeadlinesNeverBlank` | components/AnalysisResult.tsx:39-95 | With non-empty translations, the headline, the explanation and both diet lines always show text. |
| `AnalysisResult.LifestyleFallbackOnlyWhenAbsent` | components/AnalysisResult.tsx:104 | Lifestyle shows the single "general rest" item only when the list is absent; a present list, even an empty one, is shown as is. |
| `App.ScreenOf` | App.tsx:458-571 | The result panel shows exactly when the view is analyze and an analysis is current. The form shows exactly when the view is analyze and none is current. |
| `App.Mount` | App.tsx:47-54 | Without a current user the state is unchanged. Otherwise user and history become the session account's, with nothing else changed. |
| `App.NextLanguage` | App.tsx:109-115 | English is followed by Chinese, Chinese by French, and French by English. |
| `App.ToggleLanguage` | App.tsx:109-115 | Only the language changes, from English to Chinese, Chinese to French, or French to English. |
| `App.ToggleLanguageCycle` | App.tsx:109-115 | Three toggles are the identity, and two never are. |
| `App.SpeechLangCode` | App.tsx:136-138 | The recognition locale is en-US, zh-CN or fr-FR exactly for en, zh or fr. |
| `App.Spacer` | App.tsx:151 | The spacer is one space if and only if the text so far is non-empty and ends in neither a space nor a newline; otherwise it is empty. |
| `App.OnSpeechResult` | App.tsx:148-155 | Only the symptoms, which get the transcript appended, and the listening flag, which is cleared, change. |
| `App.AppendTranscript` | App.tsx:150-153 | The earlier text is a prefix and the transcript a suffix. Exactly one character, a space, goes between them, and only when the earlier text is non-empty and ends in neither a space nor a newline; otherwise nothing is inserted. The character before the transcript is therefore always a space or a newline, and appending to empty text gives the transcript. |
| `App.SelectImage` | App.tsx:98-107 | Only the selected image changes, to the data URL read. |
| `App.SaveToHistory` | App.tsx:85-96 | The new history is the item followed by the old one. When logged in, the store gets that history through `updateHistory` and so does the user record. When logged out, only the history changes. |
| `App.HandleLoginSuccess` | App.tsx:56-73 | The user becomes the account. The pending analysis is prepended and persisted exactly when no history entry has its id; otherwise the history is the account's and nothing is written. Either way the pending id ends up in the history. |
| `App.HandleLogout` | App.tsx:75-83 | Clears the session, the user, the history, the current analysis, the image and the symptoms, and returns to home. Everything else, including the language, the error text, the loading flag and the listening flag, is kept. |
| `App.HandleAnalyze` | App.tsx:169-198 | Without a truthy image nothing changes. A failure sets the error text and clears the loading flag, and nothing else. A success builds a record from the inputs' image and symptoms, makes it current, puts it first in the history, and shows the analyze view with no error and the loading flag cleared. When logged in, the new history is persisted and becomes the user record's. Nothing else changes. |
| `App.OnReset` | App.tsx:575-579 | Clears the current analysis, the image and the symptoms and keeps everything else, including the history. |
| `App.GoHome` | App.tsx:207-210 | Shows the home screen with no current analysis; nothing else changes. |
| `App.SelectFromHistory` | App.tsx:639-642 | Shows the chosen analysis on the result screen; nothing else changes. |
| `App.SaveToHistoryPreservesInSync` | App.tsx:85-96 | Saving keeps a logged-in user's in-memory history equal to the stored one. |
| `App.SaveThenReload` | App.tsx:85-96 | After saving while logged in, restoring the session yields the item followed by the old history. |
| `App.LoginEstablishesInSync` | App.tsx:56-73 | A store login passed to the login handler leaves the in-memory and stored histories equal. |
| `App.SignupEstablishesInSync` | App.tsx:56-73 | A store signup passed to the login handler leaves the in-memory and stored histories equal. |
| `App.HandleLoginSuccessIdempotent` | App.tsx:56-73 | Handling the same login twice is the same as handling it once. |
| `App.SecondLoginAddsNoDuplicate` | App.tsx:63-70 | Logging in again with the account as now stored leaves the history unchanged. |
| `App.LoginKeepsIdsUnique` | App.tsx:63-70 | If the account's history has unique ids, so does the merged history. |
| `App.LogoutThenMount` | App.tsx:75-83 | After logout, a reload restores no user. |
| `App.MountEstablishesInSync` | App.tsx:47-54 | Restoring the session from a well-formed store starts with the in-memory and stored histories equal. |
| `App.StartupInSync` | App.tsx:14-54 | The first render over any well-formed store shows the home screen, restores exactly the user the stored session names, and starts the histories in step. |
| `App.AnalyzeShowsAndSaves` | App.tsx:181-191 | Every outcome keeps the histories in step. A success shows the result screen with the new record first in the history. |
| `App.ResetReturnsToForm` | App.tsx:575-579 | "Analyze another" from a shown result returns to the form screen with the history unchanged. |

## Left out

- `services/geminiService.ts` is not modelled. The AI call is the `AiOutcome` parameter of `App.HandleAnalyze`. The prompt and schema are data. Its three failure kinds (no key, remote error, empty response) reach the component as one thrown error.
- JSON serialization of local storage is not modelled. The database is a `map` that reads back as itself; only the unreadable case is kept, as `DbSlot.Unreadable`.
- `Date.now()` is not modelled. The id and the timestamp are parameters, and nothing is claimed about id uniqueness across saves.
- Inherited prototype members (such as `toString` or `constructor`) are not modelled: both the flag walk's `key in current` and the account store's `db[username]` lookups see own keys only.
- `AuthService.Signup`: does not refuse a username that names an inherited prototype member, such as "toString", although `db[username]` (services/authService.ts:27) is truthy for it and the source answers "Username already exists". For `login`, `getCurrentUser` and `updateHistory` the same lookups end as the model's unknown-username cases, apart from a session set by hand in storage.
- The base64 split of the selected image before the AI call is not modelled, because it only shapes the opaque request.
- The `loading` flag set during the await is not modelled. Each handler is one atomic step, so only the settled state after the request is modelled.
- Interleavings during the await are not modelled, such as a login while an analysis is pending, where the source's closure would use stale `history` and `user`.
- `components/AuthModal.tsx` is not modelled: the `setTimeout` delay and the form fields. Its dispatch to `login` or `signup` followed by `onLoginSuccess` is covered by `App.LoginEstablishesInSync`, `App.SignupEstablishesInSync` and `App.SecondLoginAddsNoDuplicate`.
- The browser side of `handleVoiceInput` is not modelled: the reload used to cancel, the unsupported-browser alert, and the `onstart`/`onerror`/`onend` listening toggles. The locale and the `onresult` update are modelled.
- The symptom textarea's plain setter, the modal open/close flags, the `document.body` font class and all JSX layout are not modelled. `components/HistorySidebar.tsx`, `components/TermsOfService.tsx`, `components/PrivacyPolicy.tsx` and locale date formatting are presentation or foreign calls.
- `utils/translations.ts` is not part of this model. Its entries enter as the `AnalysisResult.Labels` record and the `errorText` parameter of `App.HandleAnalyze`.
- `AnalysisResult.Resolve`: the fields inside a present tongue body, coating or course are taken to be present strings. A partially filled object, which the source would render as blanks, is not modelled. An absent exercise inside present recommendations is rendered as the empty string.
- Storage writes that throw are not modelled. `localStorage.setItem` in `saveDb` (services/authService.ts:21) fails, for example, when the quota is full, which image data URLs in histories make plausible. Inside `handleAnalyze` (App.tsx:189-194) such a throw would leave the new analysis current and first in the in-memory history, the store unwritten, the user record stale, the error text shown and the view unchanged. The model's `App.HandleAnalyze` always completes the save after a successful AI call.
- `App.SelectImage`: a failed file read is not modelled. `onloadend` also fires then, with a null result, which clears the selected image (App.tsx:102-104); the model always sets the data URL it is given.
- The two log calls are not modelled: the `console.warn` when a feature path is not found (config/featureFlags.ts:92) and the `console.error` of a failed analysis (App.tsx:194). They write only to the browser console.

=== FILE: analysis_result.dfy ===
/** The defensive defaulting of components/AnalysisResult.tsx.

    The view first fills in whole objects the AI left out (tongue body,
    coating, recommendations, diet, suggested course) and then, while
    rendering, falls back on placeholders for an empty pattern or
    explanation, an empty or absent diet list, and an absent lifestyle list.
    The placeholders are translation entries and enter as `Labels`. */
module AnalysisResult {
  import opened Types
  import Strings

  /** The translation entries the view falls back on, in the chosen language. */
  datatype Labels = Labels(
    unknown: string,
    generalRest: string,
    generalWellness: string,
    patternAnalysis: string,
    noneSpecified: string)

  /** The one fallback that is not translated. */
  const NoExplanation := "No detailed explanation available."

  const ListSeparator := ", "

  const DefaultDifficulty := "Beginner"

  /** The values the component works with after its defensive checks. The
      diet lists and the lifestyle list can still be absent when their
      enclosing object was present without them. */
  datatype Resolved = Resolved(
    tongueBody: TongueBody,
    coating: Coating,
    diet: Diet,
    lifestyle: Option<seq<string>>,
    exercise: Option<string>,
    course: Course)

  /** What the component shows, field by field. */
  datatype Display = Display(
    title: string,
    explanation: string,
    bodyTags: seq<string>,
    coatingTags: seq<string>,
    eatText: string,
    avoidText: string,
    lifestyleItems: seq<string>,
    exercise: string,
    courseName: string,
    courseDescription: string,
    difficulty: string)

  /** The defaults applied to a report (lines 16 to 28 of the component). An
      object that is present passes through untouched; an absent one is
      replaced as a whole. A missing diet inside present recommendations
      becomes empty lists, but the recommendations' own lifestyle and
      exercise are kept as they are. */
  function Resolve(rep: Report, t: Labels): (r: Resolved)
    ensures rep.tongueBody.Some? ==> r.tongueBody == rep.tongueBody.value
    ensures rep.tongueBody.None? ==> r.tongueBody == TongueBody(t.unknown, t.unknown, t.unknown)
    ensures rep.coating.Some? ==> r.coating == rep.coating.value
    ensures rep.coating.None? ==> r.coating == Coating(t.unknown, t.unknown, t.unknown)
    ensures rep.recommendations.None? ==>
      r.diet == Diet(Some([]), Some([])) && r.lifestyle == Some([]) && r.exercise == Some(t.generalRest)
    ensures rep.recommendations.Some? ==>
      && r.lifestyle == rep.recommendations.value.lifestyle
      && r.exercise == rep.recommendations.value.exercise
      && (rep.recommendations.value.diet.Some? ==> r.diet == rep.recommendations.value.diet.value)
      && (rep.recommendations.value.diet.None? ==> r.diet == Diet(Some([]), Some([])))
    ensures rep.suggestedCourse.Some? ==> r.course == rep.suggestedCourse.value
    ensures rep.suggestedCourse.None? ==>
      r.course == Course(t.generalWellness, t.generalWellness, DefaultDifficulty)
  {
    var recs := rep.recommendations.GetOr(
      Recommendations(Some(Diet(Some([]), Some([]))), Some([]), Some(t.generalRest)));
    Resolved(
      rep.tongueBody.GetOr(TongueBody(t.unknown, t.unknown, t.unknown)),
      rep.coating.GetOr(Coating(t.unknown, t.unknown, t.unknown)),
      recs.diet.GetOr(Diet(Some([]), Some([]))),
      recs.lifestyle,
      recs.exercise,
      rep.suggestedCourse.GetOr(Course(t.generalWellness, t.generalWellness, DefaultDifficulty)))
  }

  /** `text || fallback` for a possibly absent string: absent and empty are
      both falsy. */
  function TextOr(text: Option<string>, fallback: string): (r: string)
    ensures text.Some? && text.value != "" ==> r == text.value
    ensures text.None? || text.value == "" ==> r == fallback
  {
    if text.Some? && text.value != "" then text.value else fallback
  }

  /** `list?.join(", ") || fallback`: an absent list shows the fallback,
      anything else shown is the list's own text, and the line is blank only
      when the fallback is. */
  function ListText(list: Option<seq<string>>, fallback: string): (r: string)
    ensures list.None? ==> r == fallback
    ensures r != fallback ==> list.Some? && r == Strings.Join(list.value, ListSeparator)
    ensures r == "" ==> fallback == ""
  {
    match list
    case None => fallback
    case Some(items) =>
      var joined := Strings.Join(items, ListSeparator);
      if joined != "" then joined else fallback
  }

  /** `list?.map(...) || [fallback]`: a mapped array is truthy even when
      empty, so only an absent list falls back. The items shown are none
      exactly when a present, empty list was given. */
  function ListItems(list: Option<seq<string>>, fallback: string): (r: seq<string>)
    ensures list.None? ==> r == [fallback]
    ensures list.Some? ==> r == list.value
    ensures r == [] <==> list == Some([])
  {
    match list
    case None => [fallback]
    case Some(items) => items
  }

  /** The whole rendering of a report: the AI's pattern and explanation
      unless they are missing or empty, the observations' own three tags or
      three "unknown" tags when an observation is missing, the report's own
      recommendations and course through the list fallbacks, and the
      translated defaults in place of a missing course or recommendations. */
  function Render(rep: Report, t: Labels): (r: Display)
    ensures rep.pattern.Some? && rep.pattern.value != "" ==> r.title == rep.pattern.value
    ensures rep.pattern.None? || rep.pattern.value == "" ==> r.title == t.patternAnalysis
    ensures rep.explanation.Some? && rep.explanation.value != "" ==> r.explanation == rep.explanation.value
    ensures rep.explanation.None? || rep.explanation.value == "" ==> r.explanation == NoExplanation
    ensures rep.tongueBody.Some? ==>
      var b := rep.tongueBody.value; r.bodyTags == [b.color, b.shape, b.moisture]
    ensures rep.tongueBody.None? ==> r.bodyTags == [t.unknown, t.unknown, t.unknown]
    ensures rep.coating.Some? ==>
      var c := rep.coating.value; r.coatingTags == [c.color, c.thickness, c.texture]
    ensures rep.coating.None? ==> r.coatingTags == [t.unknown, t.unknown, t.unknown]
    ensures rep.suggestedCourse.Some? ==>
      var c := rep.suggestedCourse.value;
      r.courseName == c.name && r.courseDescription == c.description && r.difficulty == c.difficulty
    ensures rep.suggestedCourse.None? ==>
      r.courseName == t.generalWellness && r.courseDescription == t.generalWellness &&
      r.difficulty == DefaultDifficulty
    ensures rep.recommendations.None? ==>
      r.eatText == t.noneSpecified && r.avoidText == t.noneSpecified &&
      r.lifestyleItems == [] && r.exercise == t.generalRest
    ensures rep.recommendations.Some? ==>
      var recs := rep.recommendations.value;
      var d := recs.diet.GetOr(Diet(Some([]), Some([])));
      && r.eatText == ListText(d.eat, t.noneSpecified)
      && r.avoidText == ListText(d.avoid, t.noneSpecified)
      && r.lifestyleItems == ListItems(recs.lifestyle, t.generalRest)
      && r.exercise == recs.exercise.GetOr("")
  {
    var v := Resolve(rep, t);
    Display(
      TextOr(rep.pattern, t.patternAnalysis),
      TextOr(rep.explanation, NoExplanation),
      [v.tongueBody.color, v.tongueBody.shape, v.tongueBody.moisture],
      [v.coating.color, v.coating.thickness, v.coating.texture],
      ListText(v.diet.eat, t.noneSpecified),
      ListText(v.diet.avoid, t.noneSpecified),
      ListItems(v.lifestyle, t.generalRest),
      v.exercise.GetOr(""),
      v.course.name,
      v.course.description,
      v.course.difficulty)
  }

  /** A diet list reads "none specified" exactly when it is absent, empty,
      or one empty item; otherwise it is the items joined by ", ". */
  lemma ListTextFallback(list: Option<seq<string>>, fallback: string)
    ensures list.None? || list.value == [] || list.value == [""] ==>
      ListText(list, fallback) == fallback
    ensures list.Some? && list.value != [] && list.value != [""] ==>
      ListText(list, fallback) == Strings.Join(list.value, ListSeparator) &&
      ListText(list, fallback) != ""
  {
    if list.Some? {
      Strings.JoinEmptyIff(list.value, ListSeparator);
    }
  }

  /** The report as the view would see it after the defaults: every object
      present, the still-absent lists kept absent. */
  function Filled(rep: Report, t: Labels): Report {
    var v := Resolve(rep, t);
    Report(
      Some(v.tongueBody),
      Some(v.coating),
      rep.pattern,
      rep.explanation,
      Some(Recommendations(Some(v.diet), v.lifestyle, v.exercise)),
      Some(v.course))
  }

  /** Defaulting is idempotent: a report already filled in resolves and
      renders to the same values. */
  lemma ResolveIdempotent(rep: Report, t: Labels)
    ensures Resolve(Filled(rep, t), t) == Resolve(rep, t)
    ensures Render(Filled(rep, t), t) == Render(rep, t)
  {
  }

  /** When every object is present, nothing of the AI's is replaced: the
      displayed observations, exercise and course are the report's own, and
      each diet line is the report's own list, falling back only when that
      list is absent or joins to nothing. */
  lemma CompleteReportShownVerbatim(rep: Report, t: Labels)
    requires rep.tongueBody.Some? && rep.coating.Some? && rep.suggestedCourse.Some?
    requires rep.recommendations.Some? && rep.recommendations.value.diet.Some?
    ensures
      var d := Render(rep, t);
      var b := rep.tongueBody.value;
      var c := rep.coating.value;
      && d.bodyTags == [b.color, b.shape, b.moisture]
      && d.coatingTags == [c.color, c.thickness, c.texture]
      && d.courseName == rep.suggestedCourse.value.name
      && d.courseDescription == rep.suggestedCourse.value.description
      && d.difficulty == rep.suggestedCourse.value.difficulty
      && d.exercise == rep.recommendations.value.exercise.GetOr("")
      && d.eatText == ListText(rep.recommendations.value.diet.value.eat, t.noneSpecified)
      && d.avoidText == ListText(rep.recommendations.value.diet.value.avoid, t.noneSpecified)
  {
  }

  /** A report with nothing in it renders as placeholders only. */
  lemma EmptyReportShowsPlaceholders(t: Labels)
    ensures
      var d := Render(Report(None, None, None, None, None, None), t);
      && d.title == t.patternAnalysis
      && d.explanation == NoExplanation
      && d.bodyTags == [t.unknown, t.unknown, t.unknown]
      && d.coatingTags == [t.unknown, t.unknown, t.unknown]
      && d.eatText == t.noneSpecified
      && d.avoidText == t.noneSpecified
      && d.lifestyleItems == []
      && d.exercise == t.generalRest
      && d.courseName == t.generalWellness
      && d.courseDescription == t.generalWellness
      && d.difficulty == DefaultDifficulty
  {
    ListTextFallback(Some([]), t.noneSpecified);
  }

  /** With non-empty translation entries, the headline, the explanation and
      both diet lines always show some text, however incomplete the report. */
  lemma HeadlinesNeverBlank(rep: Report, t: Labels)
    requires t.patternAnalysis != "" && t.noneSpecified != ""
    ensures
      var d := Render(rep, t);
      d.title != "" && d.explanation != "" && d.eatText != "" && d.avoidText != ""
  {
    var v := Resolve(rep, t);
    ListTextFallback(v.diet.eat, t.noneSpecified);
    ListTextFallback(v.diet.avoid, t.noneSpecified);
  }

  /** Lifestyle falls back on the "general rest" item only when the list is
      absent: a present empty list shows no item. */
  lemma LifestyleFallbackOnlyWhenAbsent(rep: Report, t: Labels)
    requires rep.recommendations.Some?
    ensures rep.recommendations.value.lifestyle.None? ==>
      Render(rep, t).lifestyleItems == [t.generalRest]
    ensures rep.recommendations.value.lifestyle.Some? ==>
      Render(rep, t).lifestyleItems == rep.recommendations.value.lifestyle.value
  {
  }
}

=== FILE: app.dfy ===
/** The pure state transitions inside the event handlers of App.tsx.

    The component's `useState` hooks become one immutable record, and each
    handler becomes a function from that record to the next one. Local
    storage is the record's `store` and is changed only through the account
    store model, where the component calls `authService`. The AI call, the
    clock, the file reader and speech recognition are not modelled: what
    they produce enters as parameters. */
module App {
  import opened Types
  import AuthService

  datatype AppState = AppState(
    view: ViewState,
    history: seq<TongueAnalysis>,
    currentAnalysis: Option<TongueAnalysis>,
    language: Language,
    user: Option<User>,
    selectedImage: Option<string>,
    symptoms: string,
    loading: bool,
    error: Option<string>,
    listening: bool,
    store: AuthService.Store)

  /** What the AI call of `handleAnalyze` settles to. The service's three
      failures (no API key, a remote error, an empty response) all reach the
      component as one thrown error. */
  datatype AiOutcome = AiSuccess(report: Report) | AiFailure

  /** The main panel the component renders for a state. */
  datatype Screen = HomeScreen | FormScreen | ResultScreen | NoPanel

  /** The `useState` initial values, over whatever local storage holds. */
  function Initial(store: AuthService.Store): AppState {
    AppState(Home, [], None, En, None, None, "", false, None, false, store)
  }

  function ScreenOf(s: AppState): (r: Screen)
    ensures r == ResultScreen <==> s.view == Analyze && s.currentAnalysis.Some?
    ensures r == FormScreen <==> s.view == Analyze && s.currentAnalysis.None?
    ensures r == HomeScreen <==> s.view == Home
  {
    match s.view
    case Home => HomeScreen
    case Analyze => if s.currentAnalysis.Some? then ResultScreen else FormScreen
    case History => NoPanel
  }

  /** The in-memory history of a logged-in user is what the store holds for
      that account. */
  predicate InSync(s: AppState) {
    s.user.Some? ==>
      var name := s.user.value.username;
      name in AuthService.Accounts(s.store) &&
      AuthService.Accounts(s.store)[name].history == s.history
  }

  /** The mount effect: restore the session's user and their history. */
  function Mount(s: AppState): (r: AppState)
    ensures AuthService.GetCurrentUser(s.store).None? ==> r == s
    ensures AuthService.GetCurrentUser(s.store).Some? ==>
      var account := AuthService.Accounts(s.store)[s.store.session.value];
      && r.user == Some(User(account.username, account.history))
      && r.history == account.history
      && r == s.(user := r.user, history := r.history)
  {
    match AuthService.GetCurrentUser(s.store)
    case None => s
    case Some(u) => s.(user := Some(u), history := u.history)
  }

  /** `toggleLanguage`: en, then zh, then fr, then en again. */
  function NextLanguage(l: Language): (r: Language)
    ensures l == En ==> r == Zh
    ensures l == Zh ==> r == Fr
    ensures l == Fr ==> r == En
  {
    if l == En then Zh
    else if l == Zh then Fr
    else En
  }

  function ToggleLanguage(s: AppState): (r: AppState)
    ensures s.language == En ==> r.language == Zh
    ensures s.language == Zh ==> r.language == Fr
    ensures s.language == Fr ==> r.language == En
    ensures r.(language := s.language) == s
  {
    s.(language := NextLanguage(s.language))
  }

  /** The speech recognition locale for the interface language. */
  function SpeechLangCode(l: Language): (code: string)
    ensures l == En <==> code == "en-US"
    ensures l == Zh <==> code == "zh-CN"
    ensures l == Fr <==> code == "fr-FR"
  {
    match l
    case En => "en-US"
    case Zh => "zh-CN"
    case Fr => "fr-FR"
  }

  /** The separator put before a transcript: one space, unless the text so
      far is empty or already ends in a space or a newline. */
  function Spacer(prev: string): (r: string)
    ensures r == " " <==> |prev| > 0 && prev[|prev| - 1] != ' ' && prev[|prev| - 1] != '\n'
    ensures r != " " ==> r == ""
  {
    if |prev| > 0 && prev[|prev| - 1] !in [' ', '\n'] then " " else ""
  }

  /** The `setSymptoms` updater of `recognition.onresult`: the earlier
      text, the spacer it calls for, then the transcript. */
  function AppendTranscript(prev: string, transcript: string): (r: string)
    ensures prev <= r
    ensures |prev| <= |r| - |transcript| <= |prev| + 1
    ensures r[|r| - |transcript|..] == transcript
    ensures |r| > |transcript| ==> r[|r| - |transcript| - 1] == ' ' || r[|r| - |transcript| - 1] == '\n'
    ensures prev == "" ==> r == transcript
    ensures |r| == |prev| + |transcript| + 1 <==>
      |prev| > 0 && prev[|prev| - 1] != ' ' && prev[|prev| - 1] != '\n'
    ensures |r| > |prev| + |transcript| ==> r[|prev|] == ' '
  {
    var r := prev + Spacer(prev) + transcript;
    assert r == (prev + Spacer(prev)) + transcript;
    r
  }

  /** `recognition.onresult`: append the transcript and stop listening. */
  function OnSpeechResult(s: AppState, transcript: string): (r: AppState)
    ensures r.symptoms == AppendTranscript(s.symptoms, transcript)
    ensures !r.listening
    ensures r.(symptoms := s.symptoms, listening := s.listening) == s
  {
    s.(symptoms := AppendTranscript(s.symptoms, transcript), listening := false)
  }

  /** `handleImageUpload`, with the file reader's data URL as a parameter. */
  function SelectImage(s: AppState, dataUrl: string): (r: AppState)
    ensures r.selectedImage == Some(dataUrl)
    ensures r.(selectedImage := s.selectedImage) == s
  {
    s.(selectedImage := Some(dataUrl))
  }

  /** `saveToHistory`: the item goes to the front of the history; a
      logged-in user's account and user record get the same history. */
  function SaveToHistory(s: AppState, item: TongueAnalysis): (r: AppState)
    ensures |r.history| == |s.history| + 1 && r.history[0] == item && r.history[1..] == s.history
    ensures s.user.None? ==> r == s.(history := r.history)
    ensures s.user.Some? ==>
      && r.store == AuthService.UpdateHistory(s.store, s.user.value.username, r.history)
      && r.user == Some(User(s.user.value.username, r.history))
      && r == s.(history := r.history, user := r.user, store := r.store)
  {
    var updated := [item] + s.history;
    match s.user
    case None => s.(history := updated)
    case Some(u) =>
      s.(history := updated,
         store := AuthService.UpdateHistory(s.store, u.username, updated),
         user := Some(u.(history := updated)))
  }

  /** `handleLoginSuccess`: take the account's history, and put the pending
      analysis in front of it (persisting the result) unless an entry with
      its id is already there. The user record keeps the history the account
      had at login. */
  function HandleLoginSuccess(s: AppState, u: User): (r: AppState)
    ensures r.user == Some(u)
    ensures s.currentAnalysis.Some? ==> HasId(r.history, s.currentAnalysis.value.id)
    ensures s.currentAnalysis.None? || HasId(u.history, s.currentAnalysis.value.id) ==>
      r.history == u.history && r.store == s.store
    ensures s.currentAnalysis.Some? && !HasId(u.history, s.currentAnalysis.value.id) ==>
      && r.history == [s.currentAnalysis.value] + u.history
      && r.store == AuthService.UpdateHistory(s.store, u.username, r.history)
    ensures r == s.(user := r.user, history := r.history, store := r.store)
  {
    match s.currentAnalysis
    case Some(pending) =>
      if !HasId(u.history, pending.id) then
        var h := [pending] + u.history;
        assert h[0] == pending;
        s.(user := Some(u), history := h, store := AuthService.UpdateHistory(s.store, u.username, h))
      else s.(user := Some(u), history := u.history)
    case None => s.(user := Some(u), history := u.history)
  }

  /** `handleLogout`: close the session and clear every piece of
      session-scoped state; the language and the accounts stay. */
  function HandleLogout(s: AppState): (r: AppState)
    ensures r.store == AuthService.Logout(s.store)
    ensures r.user.None? && r.history == [] && r.view == Home
    ensures r.currentAnalysis.None? && r.selectedImage.None? && r.symptoms == ""
    ensures r == s.(store := r.store, user := r.user, history := r.history, view := r.view,
                    currentAnalysis := r.currentAnalysis, selectedImage := r.selectedImage, symptoms := r.symptoms)
  {
    s.(store := AuthService.Logout(s.store), user := None, history := [], view := Home,
       currentAnalysis := None, selectedImage := None, symptoms := "")
  }

  /** `handleAnalyze`: nothing without a (truthy) selected image. Otherwise
      the AI outcome settles it: a failure shows the error text; a success
      becomes a record stamped with the given id and time and carrying the
      image and symptoms, which is made current, saved to the history, and
      shown. */
  function HandleAnalyze(s: AppState, outcome: AiOutcome, id: string, timestamp: int, errorText: string): (r: AppState)
    ensures s.selectedImage.None? || s.selectedImage.value == "" ==> r == s
    ensures s.selectedImage.Some? && s.selectedImage.value != "" && outcome.AiFailure? ==>
      r == s.(loading := false, error := Some(errorText))
    ensures s.selectedImage.Some? && s.selectedImage.value != "" && outcome.AiSuccess? ==>
      var a := TongueAnalysis(id, timestamp, s.selectedImage.value, s.symptoms, outcome.report);
      && r.currentAnalysis == Some(a)
      && r.history == [a] + s.history
      && r.view == Analyze
      && !r.loading && r.error.None?
      && r.store == (if s.user.Some? then AuthService.UpdateHistory(s.store, s.user.value.username, r.history) else s.store)
      && r.user == (if s.user.Some? then Some(User(s.user.value.username, r.history)) else None)
      && r == s.(currentAnalysis := r.currentAnalysis, history := r.history, view := r.view,
                 loading := r.loading, error := r.error, user := r.user, store := r.store)
  {
    match s.selectedImage
    case None => s
    case Some(image) =>
      if image == "" then s
      else match outcome
        case AiFailure => s.(loading := false, error := Some(errorText))
        case AiSuccess(report) =>
          var a := TongueAnalysis(id, timestamp, image, s.symptoms, report);
          SaveToHistory(s.(currentAnalysis := Some(a)), a).(view := Analyze, loading := false, error := None)
  }

  /** The `onReset` callback ("analyze another"): drop the shown analysis,
      the image and the symptoms; the history stays. */
  function OnReset(s: AppState): (r: AppState)
    ensures r.currentAnalysis.None? && r.selectedImage.None? && r.symptoms == ""
    ensures r.(currentAnalysis := s.currentAnalysis, selectedImage := s.selectedImage, symptoms := s.symptoms) == s
  {
    s.(currentAnalysis := None, selectedImage := None, symptoms := "")
  }

  /** The logo click: back to the home view, no analysis shown. */
  function GoHome(s: AppState): (r: AppState)
    ensures ScreenOf(r) == HomeScreen && r.currentAnalysis.None?
    ensures r.(view := s.view, currentAnalysis := s.currentAnalysis) == s
  {
    s.(view := Home, currentAnalysis := None)
  }

  /** The history sidebar's `onSelect`: show a past analysis. */
  function SelectFromHistory(s: AppState, item: TongueAnalysis): (r: AppState)
    ensures ScreenOf(r) == ResultScreen && r.currentAnalysis == Some(item)
    ensures r.(view := s.view, currentAnalysis := s.currentAnalysis) == s
  {
    s.(currentAnalysis := Some(item), view := Analyze)
  }

  /** Three toggles bring the language back. */
  lemma ToggleLanguageCycle(s: AppState)
    ensures ToggleLanguage(ToggleLanguage(ToggleLanguage(s))) == s
    ensures NextLanguage(NextLanguage(s.language)) != s.language
  {
  }

  /** Saving keeps a logged-in user's history and account in step. */
  lemma SaveToHistoryPreservesInSync(s: AppState, item: TongueAnalysis)
    requires InSync(s)
    ensures InSync(SaveToHistory(s, item))
  {
  }

  /** A saved analysis survives a reload: restoring the session afterwards
      yields the new history, newest first. */
  lemma SaveThenReload(s: AppState, item: TongueAnalysis)
    requires InSync(s) && AuthService.WellFormed(s.store)
    requires s.user.Some? && s.user.value.username != ""
    requires s.store.session == Some(s.user.value.username)
    ensures
      var r := SaveToHistory(s, item);
      AuthService.GetCurrentUser(r.store) == Some(User(s.user.value.username, [item] + s.history))
  {
    var name := s.user.value.username;
    var r := SaveToHistory(s, item);
    AuthService.UpdateThenReload(s.store, r.history);
  }

  /** Logging in through the store and handing the account to
      `handleLoginSuccess` leaves history and account in step. */
  lemma LoginEstablishesInSync(s: AppState, username: string, password: string)
    requires AuthService.WellFormed(s.store)
    requires AuthService.Login(s.store, username, password).1.Signed?
    ensures
      var (store, res) := AuthService.Login(s.store, username, password);
      InSync(HandleLoginSuccess(s.(store := store), res.user))
  {
    AuthService.LoginReturnsRequestedAccount(s.store, username, password);
  }

  /** Signing up through the store and handing the new account to
      `handleLoginSuccess` leaves history and account in step. */
  lemma SignupEstablishesInSync(s: AppState, username: string, password: string)
    requires AuthService.WellFormed(s.store)
    requires AuthService.Signup(s.store, username, password).1.Signed?
    ensures
      var (store, res) := AuthService.Signup(s.store, username, password);
      InSync(HandleLoginSuccess(s.(store := store), res.user))
  {
  }

  /** Handling the same login twice is the same as handling it once. */
  lemma HandleLoginSuccessIdempotent(s: AppState, u: User)
    ensures HandleLoginSuccess(HandleLoginSuccess(s, u), u) == HandleLoginSuccess(s, u)
  {
    var r := HandleLoginSuccess(s, u);
    if s.currentAnalysis.Some? && !HasId(u.history, s.currentAnalysis.value.id) {
      AuthService.UpdateHistoryIdempotent(s.store, u.username, r.history);
    }
  }

  /** Logging in a second time, with the account as the store now holds it,
      adds nothing: the pending analysis is already in the history. */
  lemma SecondLoginAddsNoDuplicate(s: AppState, username: string, password: string)
    requires AuthService.WellFormed(s.store)
    requires AuthService.Login(s.store, username, password).1.Signed?
    ensures
      var (store1, res1) := AuthService.Login(s.store, username, password);
      var r1 := HandleLoginSuccess(s.(store := store1), res1.user);
      var (store2, res2) := AuthService.Login(r1.store, username, password);
      res2.Signed? &&
      HandleLoginSuccess(r1.(store := store2), res2.user).history == r1.history
  {
    var (store1, res1) := AuthService.Login(s.store, username, password);
    AuthService.LoginReturnsRequestedAccount(s.store, username, password);
    var r1 := HandleLoginSuccess(s.(store := store1), res1.user);
    LoginEstablishesInSync(s, username, password);
    AuthService.OperationsPreserveWellFormed(s.store, username, password, []);
    AuthService.OperationsPreserveWellFormed(store1, username, password, r1.history);
    assert AuthService.Accounts(r1.store)[username].password == password;
    AuthService.LoginReturnsRequestedAccount(r1.store, username, password);
  }

  /** Merging the pending analysis never creates a second entry with one id. */
  lemma LoginKeepsIdsUnique(s: AppState, u: User)
    requires UniqueIds(u.history)
    ensures UniqueIds(HandleLoginSuccess(s, u).history)
  {
    var r := HandleLoginSuccess(s, u);
    if s.currentAnalysis.Some? && !HasId(u.history, s.currentAnalysis.value.id) {
      var p := s.currentAnalysis.value;
      forall i, j | 0 <= i < j < |r.history|
        ensures r.history[i].id != r.history[j].id
      {
        if i == 0 {
          assert r.history[j] == u.history[j - 1];
        } else {
          assert r.history[i] == u.history[i - 1] && r.history[j] == u.history[j - 1];
        }
      }
    }
  }

  /** After a logout a reload restores nobody, and the state is in step. */
  lemma LogoutThenMount(s: AppState)
    ensures Mount(HandleLogout(s)).user.None?
    ensures InSync(HandleLogout(s))
  {
    AuthService.LogoutClearsCurrentUser(s.store);
  }

  /** Restoring the session on mount starts history and account in step. */
  lemma MountEstablishesInSync(s: AppState)
    requires AuthService.WellFormed(s.store) && s.user.None?
    ensures InSync(Mount(s))
  {
  }

  /** The first render: the initial state, then the mount effect. The user
      is whoever the stored session restores, the home screen is shown, and
      history and account start in step. */
  lemma StartupInSync(store: AuthService.Store)
    requires AuthService.WellFormed(store)
    ensures Mount(Initial(store)).user == AuthService.GetCurrentUser(store)
    ensures ScreenOf(Mount(Initial(store))) == HomeScreen
    ensures InSync(Mount(Initial(store)))
  {
    MountEstablishesInSync(Initial(store));
  }

  /** A successful analysis is shown at once and sits at the top of the
      history; any outcome keeps a logged-in history in step. */
  lemma AnalyzeShowsAndSaves(s: AppState, outcome: AiOutcome, id: string, timestamp: int, errorText: string)
    requires InSync(s)
    ensures InSync(HandleAnalyze(s, outcome, id, timestamp, errorText))
    ensures s.selectedImage.Some? && s.selectedImage.value != "" && outcome.AiSuccess? ==>
      var r := HandleAnalyze(s, outcome, id, timestamp, errorText);
      ScreenOf(r) == ResultScreen && Some(r.history[0]) == r.currentAnalysis
  {
    if s.selectedImage.Some? && s.selectedImage.value != "" && outcome.AiSuccess? {
      var a := TongueAnalysis(id, timestamp, s.selectedImage.value, s.symptoms, outcome.report);
      SaveToHistoryPreservesInSync(s.(currentAnalysis := Some(a)), a);
    }
  }

  /** "Analyze another" from a shown result returns to an empty form and
      keeps history and account in step. */
  lemma ResetReturnsToForm(s: AppState)
    requires ScreenOf(s) == ResultScreen
    ensures ScreenOf(OnReset(s)) == FormScreen
    ensures OnReset(s).history == s.history
    ensures InSync(s) ==> InSync(OnReset(s))
  {
  }
}

=== FILE: auth_service.dfy ===
/** The local account store of services/authService.ts.

    Browser local storage holds two keys: one with the serialized account
    database and one with the current session's username. Here the first is a
    `DbSlot` (absent, unreadable, or a parsed map) and the second an optional
    string; JSON serialization is left out, so a stored map reads back as
    itself. Every operation is a function from the store to the new store and
    what the source returns. */
module AuthService {
  import opened Types

  const DuplicateUsername := "Username already exists"
  const InvalidCredentials := "Invalid username or password"

  /** A stored account: `User` plus the plain-text password. */
  datatype UserData = UserData(username: string, password: string, history: seq<TongueAnalysis>)

  /** The database key of local storage. */
  datatype DbSlot = Missing | Unreadable | Stored(accounts: map<string, UserData>)

  datatype Store = Store(db: DbSlot, session: Option<string>)

  /** `User | { error: string }`. */
  datatype AuthResult = Signed(user: User) | Failed(error: string)

  /** `getDb`: a missing key and an unparsable value both read as no accounts. */
  function GetDb(slot: DbSlot): (accounts: map<string, UserData>)
    ensures slot.Stored? ==> accounts == slot.accounts
    ensures !slot.Stored? ==> accounts == map[]
  {
    match slot
    case Stored(m) => m
    case _ => map[]
  }

  /** The accounts as the next operation would read them. */
  function Accounts(s: Store): map<string, UserData> {
    GetDb(s.db)
  }

  /** Every account is filed under its own username. */
  predicate WellFormed(s: Store) {
    forall k :: k in Accounts(s) ==> Accounts(s)[k].username == k
  }

  /** The record handed out: the stored account without its password. */
  function Sanitize(d: UserData): (u: User)
    ensures u.username == d.username && u.history == d.history
  {
    User(d.username, d.history)
  }

  /** `signup`: refuse a taken username; otherwise file a new account with an
      empty history, persist the database and open a session for it. */
  function Signup(s: Store, username: string, password: string): (r: (Store, AuthResult))
    ensures username in Accounts(s) ==> r == (s, Failed(DuplicateUsername))
    ensures username !in Accounts(s) ==>
      && Accounts(r.0).Keys == Accounts(s).Keys + {username}
      && Accounts(r.0)[username] == UserData(username, password, [])
      && (forall k :: k in Accounts(s) ==> Accounts(r.0)[k] == Accounts(s)[k])
      && r.0.session == Some(username)
      && r.1 == Signed(User(username, []))
  {
    var db := Accounts(s);
    if username in db then (s, Failed(DuplicateUsername))
    else
      var account := UserData(username, password, []);
      (Store(Stored(db[username := account]), Some(username)), Signed(Sanitize(account)))
  }

  /** `login`: the username must be filed and the password must match;
      otherwise nothing changes. On success only the session moves. */
  function Login(s: Store, username: string, password: string): (r: (Store, AuthResult))
    ensures (username !in Accounts(s) || Accounts(s)[username].password != password) ==>
      r == (s, Failed(InvalidCredentials))
    ensures username in Accounts(s) && Accounts(s)[username].password == password ==>
      && r.0 == s.(session := Some(username))
      && r.1.Signed?
      && r.1.user.history == Accounts(s)[username].history
      && r.1.user.username == Accounts(s)[username].username
  {
    var db := Accounts(s);
    if username !in db || db[username].password != password then (s, Failed(InvalidCredentials))
    else (s.(session := Some(username)), Signed(Sanitize(db[username])))
  }

  /** `logout`: drop the session key; the accounts stay. */
  function Logout(s: Store): (r: Store)
    ensures r.session.None? && r.db == s.db
  {
    s.(session := None)
  }

  /** `getCurrentUser`: the account the session names. An absent or empty
      session (both falsy) and a session naming no account give nothing. */
  function GetCurrentUser(s: Store): (r: Option<User>)
    ensures r.Some? <==>
      s.session.Some? && s.session.value != "" && s.session.value in Accounts(s)
    ensures r.Some? ==> r.value == Sanitize(Accounts(s)[s.session.value])
  {
    match s.session
    case None => None
    case Some(name) =>
      if name == "" then None
      else if name !in Accounts(s) then None
      else Some(Sanitize(Accounts(s)[name]))
  }

  /** `updateHistory`: overwrite one account's history, keeping its password
      and every other account; an unknown username writes nothing. */
  function UpdateHistory(s: Store, username: string, history: seq<TongueAnalysis>): (r: Store)
    ensures username !in Accounts(s) ==> r == s
    ensures username in Accounts(s) ==>
      && Accounts(r).Keys == Accounts(s).Keys
      && Accounts(r)[username] == Accounts(s)[username].(history := history)
      && (forall k :: k in Accounts(s) && k != username ==> Accounts(r)[k] == Accounts(s)[k])
      && r.session == s.session
  {
    var db := Accounts(s);
    if username in db then
      Store(Stored(db[username := db[username].(history := history)]), s.session)
    else s
  }

  /** The state-changing operations keep every account under its own name. */
  lemma OperationsPreserveWellFormed(s: Store, username: string, password: string, history: seq<TongueAnalysis>)
    requires WellFormed(s)
    ensures WellFormed(Signup(s, username, password).0)
    ensures WellFormed(Login(s, username, password).0)
    ensures WellFormed(Logout(s))
    ensures WellFormed(UpdateHistory(s, username, history))
  {
  }

  /** On a well-formed store a successful login hands out exactly the
      account it was asked for. */
  lemma LoginReturnsRequestedAccount(s: Store, username: string, password: string)
    requires WellFormed(s)
    requires Login(s, username, password).1.Signed?
    ensures Login(s, username, password).1.user == User(username, Accounts(s)[username].history)
  {
  }

  /** After a logout no user is current, whatever the store held. */
  lemma LogoutClearsCurrentUser(s: Store)
    ensures GetCurrentUser(Logout(s)).None?
  {
  }

  /** A fresh, non-empty username is current right after signing up. */
  lemma SignupThenCurrentUser(s: Store, username: string, password: string)
    requires username !in Accounts(s) && username != ""
    ensures GetCurrentUser(Signup(s, username, password).0) == Some(User(username, []))
  {
  }

  /** The empty username can sign up, but its session is falsy and so is
      not restored. */
  lemma EmptyUsernameSessionNotRestored(s: Store, password: string)
    requires "" !in Accounts(s)
    ensures Signup(s, "", password).1.Signed?
    ensures GetCurrentUser(Signup(s, "", password).0).None?
  {
  }

  /** Signing up, logging out and logging back in with the same password
      returns the new, empty account. */
  lemma SignupLogoutLogin(s: Store, username: string, password: string)
    requires username !in Accounts(s)
    ensures
      var afterSignup := Signup(s, username, password).0;
      Login(Logout(afterSignup), username, password) ==
        (afterSignup, Signed(User(username, [])))
  {
  }

  /** Persisting a history and reading the current user back yields that
      history: the store-then-reload round trip. */
  lemma UpdateThenReload(s: Store, history: seq<TongueAnalysis>)
    requires WellFormed(s)
    requires s.session.Some? && s.session.value != "" && s.session.value in Accounts(s)
    ensures GetCurrentUser(UpdateHistory(s, s.session.value, history)) ==
      Some(User(s.session.value, history))
  {
  }

  /** Writing the same history twice is the same as writing it once. */
  lemma UpdateHistoryIdempotent(s: Store, username: string, history: seq<TongueAnalysis>)
    ensures UpdateHistory(UpdateHistory(s, username, history), username, history) ==
      UpdateHistory(s, username, history)
  {
    if username in Accounts(s) {
      var db := Accounts(s);
      var db1 := db[username := db[username].(history := history)];
      assert db1[username := db1[username].(history := history)] == db1;
    }
  }
}

=== FILE: feature_flags.dfy ===
/** Feature flags of config/featureFlags.ts: three environment tables, the
    environment selection, and `isFeatureEnabled`, which splits a dotted path
    and walks the nested flag object one key at a time. */
module FeatureFlags {
  import opened Types
  import Strings

  /** A flag object: a boolean leaf or an object of named children. */
  datatype Flags = Leaf(on: bool) | Node(children: map<string, Flags>)

  /** The shape every table has (the `FeatureFlags` interface). */
  function Table(loginButton: bool, userHistory: bool, suggestedCourse: bool): Flags {
    Node(map[
      "auth" := Node(map["loginButton" := Leaf(loginButton), "userHistory" := Leaf(userHistory)]),
      "recommendations" := Node(map["suggestedCourse" := Leaf(suggestedCourse)])])
  }

  const DevelopmentFlags: Flags := Table(false, false, false)
  const StagingFlags: Flags := Table(false, false, false)
  const ProductionFlags: Flags := Table(false, false, false)

  /** Every leaf below `t` is false. */
  predicate AllOff(t: Flags) {
    match t
    case Leaf(b) => !b
    case Node(m) => forall k :: k in m ==> AllOff(m[k])
  }

  /** `process.env.VITE_FEATURE_ENV || process.env.NODE_ENV || 'development'`:
      an unset or empty variable falls through to the next. */
  function FeatureEnv(viteFeatureEnv: Option<string>, nodeEnv: Option<string>): (env: string)
    ensures viteFeatureEnv.Some? && viteFeatureEnv.value != "" ==> env == viteFeatureEnv.value
    ensures (viteFeatureEnv.None? || viteFeatureEnv.value == "") && nodeEnv.Some? && nodeEnv.value != "" ==>
      env == nodeEnv.value
    ensures (viteFeatureEnv.None? || viteFeatureEnv.value == "") && (nodeEnv.None? || nodeEnv.value == "") ==>
      env == "development"
  {
    var node := if nodeEnv.Some? && nodeEnv.value != "" then nodeEnv.value else "development";
    if viteFeatureEnv.Some? && viteFeatureEnv.value != "" then viteFeatureEnv.value else node
  }

  /** `getFeatureFlags`: "staging" and "production" pick their own table;
      any other environment name falls back to the development table. Every
      table has the two groups and no flag switched on. */
  function GetFeatureFlags(env: string): (t: Flags)
    ensures env == "staging" ==> t == StagingFlags
    ensures env == "production" ==> t == ProductionFlags
    ensures env != "staging" && env != "production" ==> t == DevelopmentFlags
    ensures t.Node? && t.children.Keys == {"auth", "recommendations"}
    ensures AllOff(t)
  {
    match env
    case "staging" => StagingFlags
    case "production" => ProductionFlags
    case _ => DevelopmentFlags
  }

  /** The loop of `isFeatureEnabled`: descend one key at a time; `None` when
      a key is missing or the current value is a boolean, not an object.
      The empty path stays where it is; a step needs an object holding the
      key. */
  function Walk(t: Flags, keys: seq<string>): (r: Option<Flags>)
    ensures |keys| == 0 ==> r == Some(t)
    ensures |keys| > 0 && r.Some? ==> t.Node? && keys[0] in t.children
    decreases |keys|
  {
    if |keys| == 0 then Some(t)
    else match t
      case Leaf(_) => None
      case Node(m) => if keys[0] in m then Walk(m[keys[0]], keys[1..]) else None
  }

  /** `Boolean(current)` after the walk: a leaf gives its value, an object is
      truthy, and a failed walk is false. In a tree with every flag off, a
      path is enabled exactly when it stops at an object. */
  function EnabledAt(t: Flags, keys: seq<string>): (r: bool)
    ensures r ==> Walk(t, keys).Some?
    ensures AllOff(t) ==> (r <==> Walk(t, keys).Some? && Walk(t, keys).value.Node?)
  {
    AllOffLeafDisabled(t, keys);
    match Walk(t, keys)
    case None => false
    case Some(Leaf(b)) => b
    case Some(Node(_)) => true
  }

  /** `isFeatureEnabled(featurePath)` against the table of `env`. Since no
      table switches a flag on, a path is enabled exactly when its walk
      stops at an object. */
  function IsFeatureEnabled(env: string, featurePath: string): (r: bool)
    ensures var w := Walk(GetFeatureFlags(env), Strings.Split(featurePath, '.'));
      r <==> w.Some? && w.value.Node?
  {
    EnabledAt(GetFeatureFlags(env), Strings.Split(featurePath, '.'))
  }

  /** Walking a concatenated path is walking the first part and then the
      second from wherever the first ended. */
  lemma {:induction false} WalkAppend(t: Flags, a: seq<string>, b: seq<string>)
    ensures Walk(t, a + b) == (match Walk(t, a) case None => None case Some(u) => Walk(u, b))
    decreases |a|
  {
    if |a| > 0 {
      assert (a + b)[0] == a[0] && (a + b)[1..] == a[1..] + b;
      match t
      case Leaf(_) =>
      case Node(m) =>
        if a[0] in m {
          WalkAppend(m[a[0]], a[1..], b);
        }
    } else {
      assert a + b == b;
    }
  }

  /** A segment missing from the object the walk has reached disables the
      path, whatever follows it. */
  lemma MissingKeyDisabled(t: Flags, prefix: seq<string>, key: string, rest: seq<string>)
    requires Walk(t, prefix).Some? && Walk(t, prefix).value.Node?
    requires key !in Walk(t, prefix).value.children
    ensures !EnabledAt(t, prefix + [key] + rest)
  {
    WalkAppend(t, prefix, [key] + rest);
    assert prefix + [key] + rest == prefix + ([key] + rest);
  }

  /** A path that continues below a boolean leaf is disabled, even when that
      leaf is true. */
  lemma PastLeafDisabled(t: Flags, prefix: seq<string>, rest: seq<string>)
    requires Walk(t, prefix).Some? && Walk(t, prefix).value.Leaf?
    requires |rest| > 0
    ensures !EnabledAt(t, prefix + rest)
  {
    WalkAppend(t, prefix, rest);
  }

  /** A path that stops at an object is enabled, whatever its leaves say. */
  lemma InteriorEnabled(t: Flags, keys: seq<string>)
    requires Walk(t, keys).Some? && Walk(t, keys).value.Node?
    ensures EnabledAt(t, keys)
  {
  }

  /** In a tree with every leaf off, a walk that ends at a leaf ends at a
      false one. */
  lemma {:induction false} AllOffLeafDisabled(t: Flags, keys: seq<string>)
    ensures AllOff(t) && Walk(t, keys).Some? && Walk(t, keys).value.Leaf? ==>
      !Walk(t, keys).value.on
    decreases |keys|
  {
    if AllOff(t) && |keys| > 0 {
      match t
      case Leaf(_) =>
      case Node(m) =>
        if keys[0] in m {
          AllOffLeafDisabled(m[keys[0]], keys[1..]);
        }
    }
  }

  /** In any of the tables a walk that ends at an object has stopped at one
      of the two groups. */
  lemma TableInteriorPaths(keys: seq<string>)
    requires |keys| >= 1
    ensures Walk(Table(false, false, false), keys).Some? &&
            Walk(Table(false, false, false), keys).value.Node? ==>
              keys == ["auth"] || keys == ["recommendations"]
  {
    var t := Table(false, false, false);
    if keys[0] in t.children {
      var child := t.children[keys[0]];
      assert Walk(t, keys) == Walk(child, keys[1..]);
      if |keys| >= 2 {
        if keys[1] in child.children {
          assert child.children[keys[1]] == Leaf(false);
          assert Walk(child, keys[1..]) == Walk(Leaf(false), keys[2..]);
        }
      } else {
        assert keys == [keys[0]];
      }
    }
  }

  /** In the shipped tables a non-empty path is enabled exactly when it
      names one of the two groups. */
  lemma TableEnabledPaths(keys: seq<string>)
    requires |keys| >= 1
    ensures EnabledAt(Table(false, false, false), keys) <==>
      keys == ["auth"] || keys == ["recommendations"]
  {
    var t := Table(false, false, false);
    if keys == ["auth"] || keys == ["recommendations"] {
      assert Walk(t, keys) == Walk(t.children[keys[0]], []);
    } else {
      TableInteriorPaths(keys);
    }
  }

  /** A path splits into the single segment `name` exactly when it is
      `name`, for a name without dots. */
  lemma SplitIsSingle(featurePath: string, name: string)
    requires '.' !in name
    ensures Strings.Split(featurePath, '.') == [name] <==> featurePath == name
  {
    Strings.JoinSplit(featurePath, '.');
    Strings.SplitNoSeparator(name, '.');
  }

  /** With the shipped tables, in every environment, a feature path is
      enabled exactly when it names one of the two groups: no single flag is
      on, and a group is truthy. */
  lemma EnabledExactlyForGroups(env: string, featurePath: string)
    ensures IsFeatureEnabled(env, featurePath) <==>
      featurePath == "auth" || featurePath == "recommendations"
  {
    assert GetFeatureFlags(env) == Table(false, false, false);
    TableEnabledPaths(Strings.Split(featurePath, '.'));
    SplitIsSingle(featurePath, "auth");
    SplitIsSingle(featurePath, "recommendations");
  }
}

=== FILE: strings.dfy ===
/** The two JavaScript string built-ins the core relies on:
    `String.prototype.split` with a one-character separator (the feature-flag
    path) and `Array.prototype.join` (the diet lists in the result view). */
module Strings {

  /** `parts.join(sep)`: the parts with `sep` between neighbours. Nothing
      joins to the empty string; otherwise the text starts with the first
      part. */
  function Join(parts: seq<string>, sep: string): (r: string)
    ensures |parts| == 0 ==> r == ""
    ensures |parts| > 0 ==> parts[0] <= r
  {
    if |parts| == 0 then ""
    else if |parts| == 1 then parts[0]
    else parts[0] + sep + Join(parts[1..], sep)
  }

  /** `s.split(d)` for a one-character separator: the maximal runs of `s`
      between occurrences of `d`. It never returns the empty list; the empty
      string splits into one empty part. */
  function Split(s: string, d: char): (parts: seq<string>)
    ensures |parts| >= 1
    ensures forall i :: 0 <= i < |parts| ==> d !in parts[i]
    decreases |s|
  {
    if |s| == 0 then [""]
    else
      var rest := Split(s[1..], d);
      if s[0] == d then [""] + rest
      else [[s[0]] + rest[0]] + rest[1..]
  }

  /** A joined list is empty exactly when there is nothing to join or only
      one empty part: any two parts leave a separator in between. */
  lemma JoinEmptyIff(parts: seq<string>, sep: string)
    requires |sep| > 0
    ensures Join(parts, sep) == "" <==> parts == [] || parts == [""]
  {
    if |parts| >= 2 {
      assert |Join(parts, sep)| >= |sep|;
    }
  }

  /** Joining the parts of a split with the separator gives the string back. */
  lemma {:induction false} JoinSplit(s: string, d: char)
    ensures Join(Split(s, d), [d]) == s
    decreases |s|
  {
    if |s| > 0 {
      var rest := Split(s[1..], d);
      JoinSplit(s[1..], d);
      if s[0] == d {
        assert Join(Split(s, d), [d]) == "" + [d] + Join(rest, [d]);
      } else if |rest| == 1 {
        assert Join(Split(s, d), [d]) == [s[0]] + rest[0];
      } else {
        assert Join(rest, [d]) == rest[0] + [d] + Join(rest[1..], [d]);
        assert Join(Split(s, d), [d]) == ([s[0]] + rest[0]) + [d] + Join(rest[1..], [d]);
      }
      assert s == [s[0]] + s[1..];
    }
  }

  /** A string without the separator splits into itself. */
  lemma {:induction false} SplitNoSeparator(p: string, d: char)
    requires d !in p
    ensures Split(p, d) == [p]
    decreases |p|
  {
    if |p| > 0 {
      SplitNoSeparator(p[1..], d);
      assert p == [p[0]] + p[1..];
    }
  }

  /** A leading separator-free part followed by the separator splits off. */
  lemma {:induction false} SplitAfterPart(p: string, d: char, t: string)
    requires d !in p
    ensures Split(p + [d] + t, d) == [p] + Split(t, d)
    decreases |p|
  {
    if |p| == 0 {
      assert p + [d] + t == [d] + t;
      assert (p + [d] + t)[1..] == t;
    } else {
      SplitAfterPart(p[1..], d, t);
      assert (p + [d] + t)[1..] == p[1..] + [d] + t;
      assert p == [p[0]] + p[1..];
    }
  }

  /** Splitting a join of separator-free parts gives the parts back. */
  lemma {:induction false} SplitJoin(parts: seq<string>, d: char)
    requires |parts| >= 1
    requires forall i :: 0 <= i < |parts| ==> d !in parts[i]
    ensures Split(Join(parts, [d]), d) == parts
    decreases |parts|
  {
    if |parts| == 1 {
      SplitNoSeparator(parts[0], d);
    } else {
      var tail := Join(parts[1..], [d]);
      assert Join(parts, [d]) == parts[0] + [d] + tail;
      SplitJoin(parts[1..], d);
      SplitAfterPart(parts[0], d, tail);
      assert parts == [parts[0]] + parts[1..];
    }
  }
}

=== FILE: types.dfy ===
/** Record shapes shared by the account store, the controller and the result
    view: `TongueAnalysis`, `User`, `ViewState` and `Language` of types.ts.

    The analysis part that the AI service fills in is kept as it arrived: the
    service's response schema marks no field as required, so each top-level
    object may be absent, and the result view defends against that. */
module Types {

  /** `T | undefined` / `T | null` of the source. */
  datatype Option<+T> = None | Some(value: T) {

    /** The value, or `default` when there is none. */
    function GetOr(default: T): T {
      match this
      case Some(v) => v
      case None => default
    }
  }

  datatype Language = En | Zh | Fr

  datatype ViewState = Home | Analyze | History

  datatype TongueBody = TongueBody(color: string, shape: string, moisture: string)

  datatype Coating = Coating(color: string, thickness: string, texture: string)

  datatype Diet = Diet(eat: Option<seq<string>>, avoid: Option<seq<string>>)

  datatype Recommendations = Recommendations(
    diet: Option<Diet>,
    lifestyle: Option<seq<string>>,
    exercise: Option<string>)

  /** `difficulty` is one of "Beginner", "Intermediate", "Advanced" by the
      response schema, but it is shown verbatim, so it stays a string. */
  datatype Course = Course(name: string, description: string, difficulty: string)

  /** What the AI service returns: a `TongueAnalysis` without id, timestamp,
      image and symptoms. */
  datatype Report = Report(
    tongueBody: Option<TongueBody>,
    coating: Option<Coating>,
    pattern: Option<string>,
    explanation: Option<string>,
    recommendations: Option<Recommendations>,
    suggestedCourse: Option<Course>)

  /** One saved analysis: the report plus the fields the controller adds. */
  datatype TongueAnalysis = TongueAnalysis(
    id: string,
    timestamp: int,
    imageUrl: string,
    symptoms: string,
    report: Report)

  /** An account as handed to the controller: no password. */
  datatype User = User(username: string, history: seq<TongueAnalysis>)

  /** Some entry of `history` carries the identifier `id`. */
  predicate HasId(history: seq<TongueAnalysis>, id: string) {
    exists i :: 0 <= i < |history| && history[i].id == id
  }

  /** No identifier occurs twice in `history`. */
  predicate UniqueIds(history: seq<TongueAnalysis>) {
    forall i, j :: 0 <= i < j < |history| ==> history[i].id != history[j].id
  }
}
